=== FILE: README.md ===
# Solo5 elftool manifest pipeline, in Dafny

This project models the manifest pipeline of Solo5's `solo5-elftool`
(`elftool/elftool.c`):

- `gen SOURCE OUTPUT` reads a JSON application manifest (`{"version": …,
  "devices": [{"name": …, "type": …}, …]}`), checks it in a fixed order with
  the first violation winning, and writes a C source file that declares the
  binary manifest table. The table has an implicit reserved entry 0, then one
  entry per device.
- `dump BINARY` reads the manifest note back from an executable. It hands the
  note to the table validator, then prints the device entries (those whose type
  is below `MFT_RESERVED_FIRST`) as JSON in table order.
- `abi BINARY` prints the ABI target name and ABI version from the ABI note.
- `main` picks the command from `argv[1]` and requires its exact argument
  count. Anything else prints usage and fails.

## Layout

| file | module | contents |
|---|---|---|
| `wrappers.dfy` | `Wrappers` | `Option`, `Result` |
| `json.dfy` | `Json` | the parsed JSON tree, node tags, `jtypestr` |
| `diagnostics.dfy` | `Diagnostics` | one `Error` constructor per diagnostic; `jexpect` |
| `mft_abi.dfy` | `MftAbi` | format constants, the binary table, the validator's rules |
| `manifest.dfy` | `Manifest` | the generator: root checks, device checks, rendering, and the as-written stream |
| `manifest_spec.dfy` | `ManifestSpec` | a declarative account of accepted documents and renderings, and the lemmas tying the generator to it |
| `manifest_stream.dfy` | `ManifestStream` | the as-written generator versus the validate-first one |
| `dump.dfy` | `Dump` | the dump filter and printing loop |
| `roundtrip.dfy` | `RoundTrip` | generated text → compiled table → dump |
| `abi.dfy` | `Abi` | ABI target naming and the ABI report |
| `cli.dfy` | `Cli` | argument dispatch and one whole run |

Generated C text is a sequence of `Chunk`s:

- `Header(n, n)` is `out_header`. It states the entry count twice, once in
  `#define MFT_ENTRIES` and once in `.entries`, and it holds the reserved
  entry 0.
- `Entry(name, type)` is one `out_entry` line.
- `Footer` is `out_footer`.

`Generate` checks everything and renders only on success. `GenerateStream` is
the code as written: the header goes to the file at line 158, before any device
is examined, so a failing device leaves the header and the lines of the
devices before it in the output file. `StreamAgreement` proves that the two
agree on the verdict and on the diagnostic, and on the output whenever the
run succeeds. `PartialOutput` proves what a failing run leaves behind.

Behaviour followed from the code:

- **Repeated keys.** The root walk handles members one at a time. A later
  `version` or `devices` member replaces an earlier one. But every `devices`
  array is counted into `entries`, while only the last one is rendered. So a
  document with two `devices` members gets a header count larger than its
  number of rows (`DuplicateDevicesMiscount`). With a single `devices` member
  the two agree (`HeaderMatchesRows`). Whether the JSON reader lets repeated
  keys through is up to `json.h`, which is not part of this model. For that
  reason this is stated as modelled behaviour, not as a bug in the tool.
- **Unchecked device content.** Device names are not checked for
  uniqueness, and the content of `.type` is not checked. It is copied into
  `MFT_DEV_<type>`.
- **Comma separators in `dump`.** The comma after each printed line is
  decided by slot index (`i == entries - 1`), not by the position of the
  last printed line. That puts commas correctly only because a valid table
  has no reserved entry after slot 0. `DumpRows` proves this under `Valid`.

## Model

| member | source | states |
|---|---|---|
| `Json.TypeName` | elftool/elftool.c:52-65 | every node tag gets a real name (never "UNKNOWN"), and "BOOLEAN" is the name of exactly the two boolean tags |
| `Diagnostics.Expect` | elftool/elftool.c:67-71 | a node passes exactly when it carries the expected tag; otherwise the diagnostic carries the location, the expected tag and the actual tag, and the two names differ unless the node is a boolean |
| `Manifest.Generate` | elftool/elftool.c:107-192 | a root that is not an object is rejected with the `(root)` type diagnostic; a successful rendering starts with a header whose two counts agree and are at most `MFT_MAX_ENTRIES`, and ends with the footer |
| `ManifestSpec.LastIndexOf` | elftool/elftool.c:130-145 | finds the position of the member that a left-to-right walk lets win: it has the key and no later member does; absent exactly when no member has the key |
| `ManifestSpec.CheckObjectsSpec` | elftool/elftool.c:137-140 | `Manifest.CheckObjects`, the element check of a `devices` array, passes exactly when every element is an object |
| `ManifestSpec.FirstNonObject` | elftool/elftool.c:137-140 | in a list that is not all objects, the position found holds a non-object and every element before it is an object |
| `ManifestSpec.CheckObjectsStopsAt` | elftool/elftool.c:137-140 | `Manifest.CheckObjects` fails with the `.devices[]` type diagnostic for the first non-object element, naming that element's tag |
| `ManifestSpec.ScanRootSpec` | elftool/elftool.c:130-145 | `Manifest.ScanRoot`, the root walk, succeeds exactly when every member is `version` with an integer or `devices` with an array of objects; it yields the last version, the last devices array, and the entry count increased by the devices of every array |
| `ManifestSpec.ScanRootStopsAt` | elftool/elftool.c:130-145 | `Manifest.ScanRoot` fails at the first member it does not let through, with that member's diagnostic: a non-integer `version`, a non-array `devices`, a non-object element of `devices`, or an unknown key |
| `ManifestSpec.BadRootMemberRejected` | elftool/elftool.c:121-156 | `Manifest.Generate` rejects a document with the diagnostic of its first root member that the walk does not let through, whatever follows that member |
| `ManifestSpec.UnknownRootKeyRejected` | elftool/elftool.c:130-145 | `Manifest.Generate` rejects a root key other than `version`/`devices` by name, provided every member before it is well typed |
| `ManifestSpec.CheckRootSpec` | elftool/elftool.c:121-156 | `Manifest.CheckRoot`, the root checks, pass exactly for an object root with well-typed members, version equal to `MFT_VERSION`, a `devices` member and at most `MFT_MAX_ENTRIES` entries; they deliver 1 + the device count and the last devices array |
| `ManifestSpec.RootRejections` | elftool/elftool.c:147-156 | `Manifest.Generate`, after a walk that lets every member through, fails with: missing version, then missing devices, then wrong version, then too many entries; the entry limit is enforced whatever the devices contain |
| `ManifestSpec.ScanDeviceSpec` | elftool/elftool.c:162-173 | `Manifest.ScanDevice`, the device walk, succeeds exactly when every member is `name` or `type` with a string value, and yields the last name and the last type |
| `ManifestSpec.ScanDeviceStopsAt` | elftool/elftool.c:162-173 | `Manifest.ScanDevice` fails at the first member it does not let through, with the `.devices[...]` type diagnostic for a non-string `name`/`type` and the unknown-key diagnostic otherwise |
| `ManifestSpec.BadDeviceMemberRejected` | elftool/elftool.c:160-184 | `Manifest.ValidateDevice` rejects a device with the diagnostic of its first member that the walk does not let through, ahead of the name and type checks |
| `ManifestSpec.UnknownDeviceKeyRejected` | elftool/elftool.c:162-173 | `Manifest.ValidateDevice` rejects a device key other than `name`/`type` by name, provided every member before it is well typed |
| `ManifestSpec.DeviceRejections` | elftool/elftool.c:174-184 | in `Manifest.ValidateDevice` the name checks run as present, non-empty, at most `MFT_NAME_MAX`, alphanumeric, and only then is `type` required; its content is never examined |
| `ManifestSpec.ValidateDeviceSpec` | elftool/elftool.c:160-184 | `Manifest.ValidateDevice` passes one device exactly when it is an object with string `name`/`type` members, a name of 1..`MFT_NAME_MAX` alphanumerics and a type, and yields that name and type verbatim |
| `ManifestSpec.ValidateDevicesSpec` | elftool/elftool.c:159-186 | `Manifest.ValidateDevices` passes the device list exactly when every device does, and the result is the devices in input order |
| `ManifestSpec.FirstBadDeviceWins` | elftool/elftool.c:159-186 | in `Manifest.ValidateDevices` the first failing device decides the diagnostic, whatever follows it |
| `ManifestSpec.GenerateSpec` | elftool/elftool.c:107-192 | `Manifest.Generate` accepts exactly the declaratively well-formed documents, and renders the header with 1 + device count twice, one entry per device in input order with name and type verbatim, and the footer |
| `ManifestSpec.RenderedRows` | elftool/elftool.c:158-187 | an accepted document renders 1 + (devices of the last `devices` array) table rows, while the header states 1 + the devices of every `devices` array |
| `ManifestSpec.SingleDevicesCount` | elftool/elftool.c:135-141 | with a single `devices` member the counted devices are exactly that array's elements |
| `ManifestSpec.HeaderMatchesRows` | elftool/elftool.c:128-187 | with a single `devices` member the header's entry count equals the number of table rows written |
| `ManifestSpec.DuplicateDevicesMiscount` | elftool/elftool.c:135-158 | given room for three entries, `Manifest.Generate` accepts a document whose two `devices` members each hold one well-formed device, with a header count of 3 over 2 table rows |
| `ManifestStream.DeviceErrorKind` | elftool/elftool.c:160-184 | every diagnostic about an object in the device list is a device-level one |
| `ManifestStream.CheckRootErrors` | elftool/elftool.c:121-156 | the root checks never report a device-level diagnostic |
| `ManifestStream.CheckedDevicesAreObjects` | elftool/elftool.c:137-141 | the device nodes handed to the device loop are all objects |
| `ManifestStream.EmitDevicesStops` | elftool/elftool.c:159-186 | when `Manifest.EmitDevices` fails, the number of lines it wrote is the position of a device that `Manifest.ValidateDevice` rejects, and the loop's diagnostic is that device's; without failure it wrote one line per device |
| `ManifestStream.EmitDevicesSpec` | elftool/elftool.c:159-186 | `Manifest.EmitDevices`, the as-written device loop, agrees with `Manifest.ValidateDevices` on verdict and diagnostic and writes the validate-first lines on success; each written line is the entry of the well-formed device at its position; on failure it has written fewer lines than there are devices, the next device is the rejected one and its diagnostic is the loop's; over objects only device diagnostics occur |
| `ManifestStream.StreamAgreement` | elftool/elftool.c:158-187 | `Manifest.GenerateStream`, the generator as written, and `Manifest.Generate` agree on the verdict and the diagnostic, and on success the file holds exactly the validate-first rendering |
| `ManifestStream.PartialOutput` | elftool/elftool.c:158-186 | a failed `Manifest.GenerateStream` run never leaves the footer in the file, and leaves anything at all exactly when the failure concerns a device; the file then starts with the header |
| `ManifestStream.PartialOutputContents` | elftool/elftool.c:158-186 | a failed `Manifest.GenerateStream` run that leaves output leaves the header with the full entry count, then the entries of the devices of the last `devices` array before the first rejected one, in order; that device's diagnostic is `Manifest.Generate`'s |
| `Dump.KeptMembers` | elftool/elftool.c:220-222 | `Dump.Kept`, the dump's filter, keeps exactly the entries below `MFT_RESERVED_FIRST` |
| `Dump.KeptAppend` | elftool/elftool.c:220-222 | the filter distributes over concatenation, so it keeps table order |
| `Dump.KeptOfValid` | elftool/elftool.c:209-222 | in a table the validator accepts, the device entries are exactly entries 1 onwards |
| `Dump.DumpRows` | elftool/elftool.c:220-227 | the printing loop prints one line per device entry in table order, with the name unchanged and the kind's name; for a valid table, a comma follows every line but the last |
| `Dump.Dump` | elftool/elftool.c:194-235 | no manifest note and a rejected note fail distinctly; a valid table prints the supported version and its entries 1 onwards in order |
| `RoundTrip.EntriesOf` | elftool/elftool.c:84-85 | generated entry lines compile to one table entry each, same name, with the kind code the type string names; all known kinds guarantee success |
| `RoundTrip.RenderedTable` | elftool/elftool.c:73-90 | the text rendered for devices, with a matching header count, compiles to a table the validator accepts whose device entries are those devices in order |
| `RoundTrip.CompiledTableRoundTrip` | elftool/elftool.c:158-187 | an accepted document with one `devices` member and known kinds compiles to a valid table whose device entries carry the document's names and type strings in order |
| `RoundTrip.CompileThenDump` | elftool/elftool.c:216-227 | dumping the compiled table prints the document's device names and type strings in document order |
| `Abi.TargetName` | elftool/elftool.c:237-253 | every code gets one of the six names, and "unknown" exactly for codes other than the five targets |
| `Abi.TargetCode` | elftool/elftool.c:237-253 | the printed name of a known target identifies that target, so the naming is injective on the five targets |
| `Abi.ReportAbi` | elftool/elftool.c:237-274 | a missing ABI note is an error; otherwise the version as recorded and a name that identifies the target exactly when it is known, and is "unknown" when it is not |
| `Cli.Dispatch` | elftool/elftool.c:282-300 | usage exactly when there is no command word, an unknown one, or an argument count other than 4 for `gen` and 3 for `dump`/`abi`; otherwise the command with its operands |
| `Cli.Run` | elftool/elftool.c:107-301 | the status is 0 or 1, and 0 exactly without diagnostic or usage; generation fails on an unreadable source before touching the output, then on an output it cannot create, and a parse error after the output was opened leaves it empty (lines 109-118); generation from a parsed document succeeds exactly for accepted documents and writes the validate-first rendering, and a failure never leaves the footer; dump succeeds exactly for a present valid manifest, abi exactly for a present ABI note |

## Left out

- File opening, writing and closing, `printf`/`fprintf`, `err`/`errx`/`warnx` and process exit. Files, notes and parse results are inputs in `Cli.World`. Output is a chunk sequence or a report value. Each diagnostic is an `Error` constructor, not its message text.
- The exact `printf` substitution of `out_header`, `out_entry`, `out_footer`, the dump's JSON text and the usage text. They are abstract constructors. `SOLO5_VERSION` in the generated comment is not modelled.
- The JSON reader (`jparse`, `jupdate`, `jdel` in `json.h`). The model starts from a parsed tree, in which repeated object keys may occur.
- `elf_load_note` from tenders/common/elf.c. It is not part of this model. A note is a parameter: present or absent.
- `mft_validate` from tenders/common/mft.c. It is not part of this model. `MftAbi.Valid` states the rules `mft_validate` enforces on the decoded table: the version, the count bound, the reserved slot 0, device types below `MFT_RESERVED_FIRST`, and names that fit. The binary layout and the size check against the note size are not modelled.
- `mft_type_to_string` (not shown). It is the `kindName` parameter. The toolchain's `MFT_DEV_<type>` lookup is the `typeCode` parameter.
- The C compiler's zero-filling of table slots beyond the rendered rows. `RoundTrip.TableOf` builds exactly the rendered rows, so a header count that differs from the row count gives a table the validator rejects.
- `isalnum` locale behaviour. The C locale's ASCII `[A-Za-z0-9]` is used. Each `char` of a string stands for one byte of the C string. Strings with an embedded NUL byte, which `strlen` would cut short, are not modelled.
- The values of `MFT_VERSION` (1), `MFT_MAX_ENTRIES` (64), `MFT_NAME_MAX` (67), `MFT_RESERVED_FIRST` (1 << 30) and the ABI target codes 1..5. They are taken from Solo5's mft_abi.h and elf_abi.h, which are not part of this model. No lemma depends on the four format values beyond its stated preconditions and the declared type of `MFT_NAME_MAX`, a `nat` because it is a length: `ManifestSpec.DuplicateDevicesMiscount` requires `3 <= MFT_MAX_ENTRIES`, and `ManifestSpec.DeviceRejections` relies on `MFT_NAME_MAX` not being negative, so that the empty name is not also too long. `Abi.TargetCode` depends on the five target codes being distinct.
- C integer widths. `int entries` grows for every element of every `devices` array before the limit check at line 155. It would overflow past INT_MAX device objects, which is undefined in C; the model's unbounded count does not reproduce this. `long long` versions are compared as unbounded integers. The ABI version is a 32-bit unsigned value (`uint32`).
- The `default: "UNKNOWN"` branch of `jtypestr`. The tag type here is closed, so that branch cannot be reached.

=== FILE: abi.dfy ===
/**
 * The ABI report (elftool_abi): the target and version recorded in an
 * executable's ABI note. Target codes are those of Solo5's elf_abi.h.
 */
module Abi {
  import opened Wrappers
  import opened Diagnostics

  const HVT_ABI_TARGET: int := 1
  const SPT_ABI_TARGET: int := 2
  const VIRTIO_ABI_TARGET: int := 3
  const MUEN_ABI_TARGET: int := 4
  const GENODE_ABI_TARGET: int := 5

  type uint32 = x: int | 0 <= x < 0x1_0000_0000

  /** The ABI note's payload. */
  datatype AbiInfo = AbiInfo(abiTarget: int, abiVersion: uint32)

  /** The two printed lines: target name and version. */
  datatype AbiReport = AbiReport(target: string, version: uint32)

  predicate IsKnownTarget(t: int) {
    t in {HVT_ABI_TARGET, SPT_ABI_TARGET, VIRTIO_ABI_TARGET, MUEN_ABI_TARGET, GENODE_ABI_TARGET}
  }

  /** abi_target_to_string: every code has a name; codes it does not know
      are "unknown", and no known code is. */
  function TargetName(t: int): (name: string)
    ensures name in {"hvt", "spt", "virtio", "muen", "genode", "unknown"}
    ensures name == "unknown" <==> !IsKnownTarget(t)
  {
    if t == HVT_ABI_TARGET then "hvt"
    else if t == SPT_ABI_TARGET then "spt"
    else if t == VIRTIO_ABI_TARGET then "virtio"
    else if t == MUEN_ABI_TARGET then "muen"
    else if t == GENODE_ABI_TARGET then "genode"
    else "unknown"
  }

  /**
   * The reverse lookup: the code a printed name stands for. Together with
   * TargetName it shows the naming loses nothing on the known codes.
   */
  function TargetCode(name: string): (r: Option<int>)
    ensures r.Some? ==> IsKnownTarget(r.value) && TargetName(r.value) == name
    ensures forall t :: IsKnownTarget(t) && TargetName(t) == name ==> r == Some(t)
  {
    match name
    case "hvt" => Some(HVT_ABI_TARGET)
    case "spt" => Some(SPT_ABI_TARGET)
    case "virtio" => Some(VIRTIO_ABI_TARGET)
    case "muen" => Some(MUEN_ABI_TARGET)
    case "genode" => Some(GENODE_ABI_TARGET)
    case _ => None
  }

  /** elftool_abi: a missing note is an error; otherwise the target's name
      ("unknown" for a code it does not know) and the version as recorded. */
  function ReportAbi(binary: string, note: Option<AbiInfo>): (r: Result<AbiReport, Error>)
    ensures note.None? ==> r == Err(NoAbiInfo(binary))
    ensures note.Some? ==> r.Ok? && r.value.version == note.value.abiVersion
    ensures note.Some? ==>
      TargetCode(r.value.target) ==
        (if IsKnownTarget(note.value.abiTarget) then Some(note.value.abiTarget) else None)
    ensures note.Some? && !IsKnownTarget(note.value.abiTarget) ==> r.value.target == "unknown"
  {
    match note
    case None => Err(NoAbiInfo(binary))
    case Some(info) => Ok(AbiReport(TargetName(info.abiTarget), info.abiVersion))
  }
}

=== FILE: cli.dfy ===
/**
 * The command line (main): choosing a command from argv[1] with its exact
 * argument count, and the exit status and output of each command. The file
 * system and the executable's notes are given as a World.
 */
module Cli {
  import opened Wrappers
  import opened Json
  import opened MftAbi
  import opened Diagnostics
  import opened Manifest
  import opened ManifestSpec
  import opened ManifestStream
  import opened Dump
  import opened Abi

  const EXIT_SUCCESS: int := 0
  const EXIT_FAILURE: int := 1

  datatype Command =
    | Gen(source: string, output: string)
    | DumpBinary(binary: string)
    | AbiBinary(binary: string)
    | Usage

  /** The argument count, argv[0] included, each command name takes. */
  function Arity(name: string): Option<nat> {
    match name
    case "gen" => Some(4)
    case "dump" => Some(3)
    case "abi" => Some(3)
    case _ => None
  }

  /**
   * The dispatch of lines 282-300: usage exactly when there is no command
   * word, the word is not a command, or the argument count is not exactly
   * the command's; otherwise the command with its operands.
   */
  function Dispatch(argv: seq<string>): (c: Command)
    ensures c.Usage? <==> |argv| < 2 || Arity(argv[1]).None? || |argv| != Arity(argv[1]).value
    ensures c.Gen? ==> |argv| == 4 && argv[1] == "gen" && c == Gen(argv[2], argv[3])
    ensures c.DumpBinary? ==> |argv| == 3 && argv[1] == "dump" && c == DumpBinary(argv[2])
    ensures c.AbiBinary? ==> |argv| == 3 && argv[1] == "abi" && c == AbiBinary(argv[2])
  {
    if |argv| < 2 then Usage
    else if argv[1] == "gen" then
      if |argv| != 4 then Usage else Gen(argv[2], argv[3])
    else if argv[1] == "dump" then
      if |argv| != 3 then Usage else DumpBinary(argv[2])
    else if argv[1] == "abi" then
      if |argv| != 3 then Usage else AbiBinary(argv[2])
    else Usage
  }

  /** What reading a source path gives: fopen fails, jparse fails, or a tree. */
  datatype SourceFile = Unreadable | Unparsable | Parsed(root: JValue)

  /** The environment a run sees. `kindName` is mft_type_to_string. */
  datatype World = World(
    source: string -> SourceFile,
    canCreate: string -> bool,
    canOpen: string -> bool,
    manifestNote: string -> Option<Mft>,
    abiNote: string -> Option<AbiInfo>,
    kindName: nat -> string)

  datatype Effect =
    | NoOutput
    | PrintedUsage
    | WroteFile(path: string, text: seq<Chunk>)
    | PrintedManifest(manifest: DumpReport)
    | PrintedAbi(abi: AbiReport)

  /** The exit status, the visible output, and the diagnostic if any. */
  datatype Exit = Exit(status: int, effect: Effect, failure: Option<Error>)

  /** elftool_generate as written, from opening the files to the last write. */
  function RunGen(w: World, source: string, output: string): Exit {
    if w.source(source).Unreadable? then Exit(EXIT_FAILURE, NoOutput, Some(CannotOpen(source)))
    else if !w.canCreate(output) then Exit(EXIT_FAILURE, NoOutput, Some(CannotOpen(output)))
    else if w.source(source).Unparsable? then
      Exit(EXIT_FAILURE, WroteFile(output, []), Some(ParseError(source)))
    else
      var (text, failure) := GenerateStream(w.source(source).root);
      Exit(if failure.None? then EXIT_SUCCESS else EXIT_FAILURE, WroteFile(output, text), failure)
  }

  /**
   * One run of the tool. The status is 0 exactly when there is no
   * diagnostic and no usage message. A generation opens the source, then
   * creates the output, then parses: an unreadable source or an output that
   * cannot be created fails with nothing written, and a parse error leaves
   * the output truncated to nothing. A generation from a readable document
   * into a creatable file succeeds exactly for accepted documents and then
   * writes the validate-first rendering, while on failure the file it leaves
   * behind never holds the footer; a dump succeeds exactly for a
   * present, valid manifest; an ABI report exactly for a present ABI note.
   */
  method Run(w: World, argv: seq<string>) returns (x: Exit)
    ensures x.status == EXIT_SUCCESS || x.status == EXIT_FAILURE
    ensures x.status == EXIT_SUCCESS <==> x.failure.None? && !x.effect.PrintedUsage?
    ensures Dispatch(argv).Usage? ==> x == Exit(EXIT_FAILURE, PrintedUsage, None)
    ensures Dispatch(argv).Gen? && w.source(argv[2]).Unreadable? ==>
      x == Exit(EXIT_FAILURE, NoOutput, Some(CannotOpen(argv[2])))
    ensures Dispatch(argv).Gen? && !w.source(argv[2]).Unreadable? && !w.canCreate(argv[3]) ==>
      x == Exit(EXIT_FAILURE, NoOutput, Some(CannotOpen(argv[3])))
    ensures Dispatch(argv).Gen? && w.source(argv[2]).Unparsable? && w.canCreate(argv[3]) ==>
      x == Exit(EXIT_FAILURE, WroteFile(argv[3], []), Some(ParseError(argv[2])))
    ensures Dispatch(argv).Gen? && w.source(argv[2]).Parsed? && w.canCreate(argv[3]) ==>
      && (x.status == EXIT_SUCCESS <==> Accepted(w.source(argv[2]).root))
      && (x.status == EXIT_SUCCESS ==>
            x.effect.WroteFile? && x.effect.path == argv[3] &&
            Generate(w.source(argv[2]).root) == Ok(x.effect.text))
      && (x.status == EXIT_FAILURE ==> x.effect.WroteFile? && Footer !in x.effect.text)
    ensures Dispatch(argv).DumpBinary? && w.canOpen(argv[2]) ==>
      (x.status == EXIT_SUCCESS <==>
        w.manifestNote(argv[2]).Some? && Valid(w.manifestNote(argv[2]).value))
    ensures Dispatch(argv).AbiBinary? && w.canOpen(argv[2]) ==>
      (x.status == EXIT_SUCCESS <==> w.abiNote(argv[2]).Some?)
  {
    match Dispatch(argv)
    case Usage =>
      x := Exit(EXIT_FAILURE, PrintedUsage, None);
    case Gen(source, output) =>
      if w.source(source).Parsed? {
        StreamAgreement(w.source(source).root);
        GenerateSpec(w.source(source).root);
        if Generate(w.source(source).root).Err? {
          PartialOutput(w.source(source).root);
        }
      }
      x := RunGen(w, source, output);
    case DumpBinary(binary) =>
      if !w.canOpen(binary) {
        x := Exit(EXIT_FAILURE, NoOutput, Some(CannotOpen(binary)));
      } else {
        var r := Dump.Dump(binary, w.manifestNote(binary), w.kindName);
        x := match r
          case Ok(report) => Exit(EXIT_SUCCESS, PrintedManifest(report), None)
          case Err(e) => Exit(EXIT_FAILURE, NoOutput, Some(e));
      }
    case AbiBinary(binary) =>
      if !w.canOpen(binary) {
        x := Exit(EXIT_FAILURE, NoOutput, Some(CannotOpen(binary)));
      } else {
        x := match ReportAbi(binary, w.abiNote(binary))
          case Ok(report) => Exit(EXIT_SUCCESS, PrintedAbi(report), None)
          case Err(e) => Exit(EXIT_FAILURE, NoOutput, Some(e));
      }
  }
}

=== FILE: diagnostics.dfy ===
/** The diagnostics the tool ends with, one constructor per distinct message. */
module Diagnostics {
  import opened Wrappers
  import opened Json

  /** The location prefix a type diagnostic carries. */
  datatype Loc =
    | AtRoot          // "(root)"
    | AtVersion       // ".version"
    | AtDevices       // ".devices"
    | AtDevicesElem   // ".devices[]"
    | AtDeviceMember  // ".devices[...]"

  datatype Error =
    | WrongType(loc: Loc, expected: JType, got: JType)
    | UnknownRootKey(key: string)
    | MissingVersion
    | MissingDevices
    | InvalidVersion(version: int)
    | TooManyEntries
    | UnknownDeviceKey(key: string)
    | MissingName
    | EmptyName
    | NameTooLong
    | NameNotAlnum
    | MissingType
    | CannotOpen(path: string)
    | ParseError(path: string)
    | NoManifest(binary: string)
    | ValidationFailed(binary: string)
    | NoAbiInfo(binary: string)

  /** Diagnostics raised while a single device object is examined. */
  predicate IsDeviceError(e: Error) {
    || (e.WrongType? && e.loc == AtDeviceMember)
    || e.UnknownDeviceKey? || e.MissingName? || e.EmptyName?
    || e.NameTooLong? || e.NameNotAlnum? || e.MissingType?
  }

  /**
   * jexpect: a node passes exactly when it carries the expected tag; otherwise
   * the diagnostic names the location, the expected tag and the actual tag,
   * and the message spells both tags through TypeName.
   */
  function Expect(t: JType, v: JValue, loc: Loc): (r: Result<(), Error>)
    ensures r.Ok? <==> TypeOf(v) == t
    ensures r.Err? ==> r.error.WrongType? && r.error.loc == loc
    ensures r.Err? ==> r.error.expected == t && r.error.got == TypeOf(v)
    ensures r.Err? ==> TypeName(r.error.expected) != TypeName(r.error.got) || v.JBool?
  {
    if TypeOf(v) == t then Ok(()) else Err(WrongType(loc, t, TypeOf(v)))
  }
}

=== FILE: dump.dfy ===
/**
 * The manifest dump (elftool_dump): a table read back from an executable is
 * validated and its device entries are printed, in table order, as the same
 * JSON shape the generator reads.
 */
module Dump {
  import opened Wrappers
  import opened MftAbi
  import opened Diagnostics

  /** One printed device line; `comma` is the separator printed after it. */
  datatype Row = Row(name: string, kind: string, comma: bool)

  /** The printed document: its `version` field and its device lines. */
  datatype DumpReport = DumpReport(version: int, rows: seq<Row>)

  /** The device entries of a table: those below the reserved types, in
      table order. */
  function Kept(e: seq<MftEntry>): (k: seq<MftEntry>)
    ensures |k| <= |e|
    decreases |e|
  {
    if |e| == 0 then []
    else (if e[0].typ < MFT_RESERVED_FIRST then [e[0]] else []) + Kept(e[1..])
  }

  /** The filter keeps exactly the entries below the reserved types. */
  lemma {:induction false} KeptMembers(e: seq<MftEntry>)
    ensures forall x :: x in Kept(e) <==> x in e && x.typ < MFT_RESERVED_FIRST
    decreases |e|
  {
    if |e| > 0 {
      assert forall x :: x in e <==> x == e[0] || x in e[1..];
      KeptMembers(e[1..]);
    }
  }

  lemma {:induction false} KeptAppend(a: seq<MftEntry>, b: seq<MftEntry>)
    ensures Kept(a + b) == Kept(a) + Kept(b)
    decreases |a|
  {
    if |a| == 0 {
      assert a + b == b;
    } else {
      assert (a + b)[0] == a[0];
      assert (a + b)[1..] == a[1..] + b;
      KeptAppend(a[1..], b);
    }
  }

  /** In a valid table the device entries are exactly entries 1 onwards. */
  lemma KeptOfValid(m: Mft)
    requires Valid(m)
    ensures Kept(m.e) == m.e[1..]
  {
    assert m.e == [m.e[0]] + m.e[1..];
    KeptAppend([m.e[0]], m.e[1..]);
    KeptAllDevices(m.e[1..]);
  }

  lemma {:induction false} KeptAllDevices(e: seq<MftEntry>)
    requires forall i :: 0 <= i < |e| ==> e[i].typ < MFT_RESERVED_FIRST
    ensures Kept(e) == e
    decreases |e|
  {
    if |e| > 0 {
      KeptAllDevices(e[1..]);
    }
  }

  /** Extending a prefix by one slot keeps that slot exactly when it is a
      device entry. */
  lemma KeptStep(e: seq<MftEntry>, i: nat)
    requires i < |e|
    ensures Kept(e[..i + 1]) == Kept(e[..i]) + (if e[i].typ < MFT_RESERVED_FIRST then [e[i]] else [])
  {
    assert e[..i + 1] == e[..i] + [e[i]];
    KeptAppend(e[..i], [e[i]]);
  }

  /** In a valid table, slot `i` holds a device entry exactly when it is
      not slot 0. */
  lemma ValidSlot(m: Mft, i: nat)
    requires Valid(m) && i < |m.e|
    ensures m.e[i].typ < MFT_RESERVED_FIRST <==> i != 0
  {
  }

  /** `rows` prints the entries of `kept`, in order, with their kind names. */
  ghost predicate Lists(rows: seq<Row>, kept: seq<MftEntry>, kindName: nat -> string) {
    |rows| == |kept| &&
    forall k :: 0 <= k < |rows| ==> rows[k].name == kept[k].name && rows[k].kind == kindName(kept[k].typ)
  }

  /** Row `k` carries a comma exactly when it is not printed for the last
      of `n` slots, the first of which is reserved. */
  ghost predicate Commas(rows: seq<Row>, n: nat) {
    forall k :: 0 <= k < |rows| ==> (rows[k].comma <==> k + 2 != n)
  }

  /** What the printing loop has produced after its first `i` slots. */
  ghost predicate Printed(m: Mft, kindName: nat -> string, i: nat, rows: seq<Row>)
    requires i <= |m.e|
  {
    Lists(rows, Kept(m.e[..i]), kindName) &&
    (Valid(m) ==> |rows| == (if i == 0 then 0 else i - 1) && Commas(rows, m.entries))
  }

  /** The line the loop prints for slot `i`, if any. */
  function PrintSlot(m: Mft, kindName: nat -> string, i: nat): seq<Row>
    requires i < |m.e|
  {
    if m.e[i].typ < MFT_RESERVED_FIRST then [Row(m.e[i].name, kindName(m.e[i].typ), i != |m.e| - 1)] else []
  }

  /** One turn of the printing loop keeps `Printed`. */
  lemma PrintedStep(m: Mft, kindName: nat -> string, i: nat, rows: seq<Row>)
    requires m.entries == |m.e| && i < |m.e| && Printed(m, kindName, i, rows)
    ensures Printed(m, kindName, i + 1, rows + PrintSlot(m, kindName, i))
  {
    KeptStep(m.e, i);
    if Valid(m) {
      ValidSlot(m, i);
    }
  }

  /** Once every slot is walked, `Printed` is the loop's postcondition. */
  lemma PrintedAll(m: Mft, kindName: nat -> string, rows: seq<Row>)
    requires m.entries == |m.e| && Printed(m, kindName, |m.e|, rows)
    ensures |rows| == |Kept(m.e)|
    ensures forall k :: 0 <= k < |rows| ==>
      rows[k].name == Kept(m.e)[k].name && rows[k].kind == kindName(Kept(m.e)[k].typ)
    ensures Valid(m) ==> forall k :: 0 <= k < |rows| ==> (rows[k].comma <==> k + 1 < |rows|)
  {
    assert m.e[..|m.e|] == m.e;
  }

  /**
   * The printing loop (lines 220-227): it walks the `entries` slots, skips
   * the reserved types and prints name and kind name of the rest, with a
   * comma after every line but the one for the last slot. For a valid table
   * that puts a comma after every printed line except the last.
   */
  method DumpRows(m: Mft, kindName: nat -> string) returns (rows: seq<Row>)
    requires m.entries == |m.e|
    ensures |rows| == |Kept(m.e)|
    ensures forall k :: 0 <= k < |rows| ==>
      rows[k].name == Kept(m.e)[k].name && rows[k].kind == kindName(Kept(m.e)[k].typ)
    ensures Valid(m) ==> forall k :: 0 <= k < |rows| ==> (rows[k].comma <==> k + 1 < |rows|)
  {
    rows := [];
    var i: nat := 0;
    while i != m.entries
      invariant i <= m.entries
      invariant Printed(m, kindName, i, rows)
    {
      PrintedStep(m, kindName, i, rows);
      if m.e[i].typ < MFT_RESERVED_FIRST {
        rows := rows + [Row(m.e[i].name, kindName(m.e[i].typ), i != m.entries - 1)];
      }
      i := i + 1;
    }
    PrintedAll(m, kindName, rows);
  }

  /**
   * elftool_dump: no manifest note and a note the validator rejects are
   * reported distinctly; a valid table prints the supported version and one
   * line per device entry (entries 1 onwards), in table order.
   */
  method Dump(binary: string, note: Option<Mft>, kindName: nat -> string)
    returns (r: Result<DumpReport, Error>)
    ensures note.None? ==> r == Err(NoManifest(binary))
    ensures note.Some? && !Valid(note.value) ==> r == Err(ValidationFailed(binary))
    ensures note.Some? && Valid(note.value) ==>
      && r.Ok?
      && r.value.version == MFT_VERSION
      && |r.value.rows| == |note.value.e| - 1
      && (forall k :: 0 <= k < |r.value.rows| ==>
            r.value.rows[k].name == note.value.e[k + 1].name &&
            r.value.rows[k].kind == kindName(note.value.e[k + 1].typ))
      && (forall k :: 0 <= k < |r.value.rows| ==> (r.value.rows[k].comma <==> k + 1 < |r.value.rows|))
  {
    if note.None? {
      return Err(NoManifest(binary));
    }
    var m := note.value;
    if !Valid(m) {
      return Err(ValidationFailed(binary));
    }
    KeptOfValid(m);
    var rows := DumpRows(m, kindName);
    return Ok(DumpReport(MFT_VERSION, rows));
  }
}

=== FILE: json.dfy ===
/**
 * The parsed JSON tree that the document reader (json.h) hands to the
 * manifest generator. Object members keep their source order, and a key may
 * occur more than once: the generator walks members one by one.
 */
module Json {

  datatype JValue =
    | JNull
    | JBool(b: bool)
    | JString(s: string)
    | JArray(elems: seq<JValue>)
    | JObject(members: seq<(string, JValue)>)
    | JInt(i: int)
    | JReal(r: real)

  /** The parser's node tags; `true` and `false` carry distinct tags. */
  datatype JType = TNull | TTrue | TFalse | TString | TArray | TObject | TInt | TReal

  function TypeOf(v: JValue): JType {
    match v
    case JNull => TNull
    case JBool(b) => if b then TTrue else TFalse
    case JString(_) => TString
    case JArray(_) => TArray
    case JObject(_) => TObject
    case JInt(_) => TInt
    case JReal(_) => TReal
  }

  /** jtypestr: the word a diagnostic uses for a node tag. */
  function TypeName(t: JType): (name: string)
    ensures name != "UNKNOWN"
    ensures name == "BOOLEAN" <==> t == TTrue || t == TFalse
  {
    match t
    case TNull => "NULL"
    case TTrue => "BOOLEAN"
    case TFalse => "BOOLEAN"
    case TString => "STRING"
    case TArray => "ARRAY"
    case TObject => "OBJECT"
    case TInt => "INTEGER"
    case TReal => "REAL"
  }
}

=== FILE: manifest.dfy ===
/**
 * The manifest generator (elftool_generate): validation of the parsed JSON
 * document and the generated C text, as written. The C text is modelled as
 * a sequence of chunks, one per template (out_header, out_entry, out_footer).
 */
module Manifest {
  import opened Wrappers
  import opened Json
  import opened MftAbi
  import opened Diagnostics

  type Members = seq<(string, JValue)>

  /** A device as accepted: its name and its type string, copied verbatim. */
  datatype Device = Device(name: string, typ: string)

  datatype Chunk =
      /** out_header: `#define MFT_ENTRIES`, the `.entries` field and the
          reserved entry 0 (one table row). */
    | Header(defineEntries: int, noteEntries: int)
      /** out_entry: one table row `{ .name = name, .type = MFT_DEV_typ }`. */
    | Entry(name: string, typ: string)
      /** out_footer: closes the table and the note. */
    | Footer

  /** What the walk over the root members has seen so far. */
  datatype RootScan = RootScan(version: Option<int>, devices: Option<seq<JValue>>, entries: int)

  /** What the walk over one device's members has seen so far. */
  datatype DeviceScan = DeviceScan(name: Option<string>, typ: Option<string>)

  /** isalnum in the C locale, on one byte of the name. */
  predicate IsAlnum(c: char) {
    ('a' <= c <= 'z') || ('A' <= c <= 'Z') || ('0' <= c <= '9')
  }

  predicate AllAlnum(s: string) {
    forall i :: 0 <= i < |s| ==> IsAlnum(s[i])
  }

  /** Every element of a `devices` array must be an object (lines 137-140). */
  function CheckObjects(es: seq<JValue>): Result<(), Error>
    decreases |es|
  {
    if |es| == 0 then Ok(())
    else
      var _ :- Expect(TObject, es[0], AtDevicesElem);
      CheckObjects(es[1..])
  }

  /**
   * The walk over the root members (lines 130-145): a later `version` or
   * `devices` replaces an earlier one, and every `devices` array adds its
   * length to the entry count.
   */
  function ScanRoot(ms: Members, acc: RootScan): Result<RootScan, Error>
    decreases |ms|
  {
    if |ms| == 0 then Ok(acc)
    else
      var (key, v) := ms[0];
      if key == "version" then
        var _ :- Expect(TInt, v, AtVersion);
        ScanRoot(ms[1..], acc.(version := Some(v.i)))
      else if key == "devices" then
        var _ :- Expect(TArray, v, AtDevices);
        var _ :- CheckObjects(v.elems);
        ScanRoot(ms[1..], acc.(devices := Some(v.elems), entries := acc.entries + |v.elems|))
      else
        Err(UnknownRootKey(key))
  }

  /**
   * Lines 121-156: the root checks, in source order. On success, the entry
   * count (the reserved entry plus every device counted) and the device
   * nodes of the last `devices` member.
   */
  function CheckRoot(root: JValue): Result<(int, seq<JValue>), Error> {
    var _ :- Expect(TObject, root, AtRoot);
    var scan :- ScanRoot(root.members, RootScan(None, None, 1));
    if scan.version.None? then Err(MissingVersion)
    else if scan.devices.None? then Err(MissingDevices)
    else if scan.version.value != MFT_VERSION then Err(InvalidVersion(scan.version.value))
    else if scan.entries > MFT_MAX_ENTRIES then Err(TooManyEntries)
    else Ok((scan.entries, scan.devices.value))
  }

  /** The walk over one device's members (lines 162-173); the last `name`
      and the last `type` win. */
  function ScanDevice(ms: Members, acc: DeviceScan): Result<DeviceScan, Error>
    decreases |ms|
  {
    if |ms| == 0 then Ok(acc)
    else
      var (key, v) := ms[0];
      if key == "name" then
        var _ :- Expect(TString, v, AtDeviceMember);
        ScanDevice(ms[1..], acc.(name := Some(v.s)))
      else if key == "type" then
        var _ :- Expect(TString, v, AtDeviceMember);
        ScanDevice(ms[1..], acc.(typ := Some(v.s)))
      else
        Err(UnknownDeviceKey(key))
  }

  /** Lines 160-184: the checks on one device, in source order. */
  function ValidateDevice(v: JValue): Result<Device, Error> {
    var _ :- Expect(TObject, v, AtDevicesElem);
    var scan :- ScanDevice(v.members, DeviceScan(None, None));
    if scan.name.None? then Err(MissingName)
    else if |scan.name.value| == 0 then Err(EmptyName)
    else if |scan.name.value| > MFT_NAME_MAX then Err(NameTooLong)
    else if !AllAlnum(scan.name.value) then Err(NameNotAlnum)
    else if scan.typ.None? then Err(MissingType)
    else Ok(Device(scan.name.value, scan.typ.value))
  }

  /** All devices in order; the first device that fails decides the error. */
  function ValidateDevices(ds: seq<JValue>): Result<seq<Device>, Error>
    decreases |ds|
  {
    if |ds| == 0 then Ok([])
    else
      var d :- ValidateDevice(ds[0]);
      var rest :- ValidateDevices(ds[1..]);
      Ok([d] + rest)
  }

  function RenderEntries(devs: seq<Device>): seq<Chunk> {
    seq(|devs|, j requires 0 <= j < |devs| => Entry(devs[j].name, devs[j].typ))
  }

  /** The generated text for an already validated document. */
  function Render(entries: int, devs: seq<Device>): seq<Chunk> {
    [Header(entries, entries)] + RenderEntries(devs) + [Footer]
  }

  /**
   * The generator with every check made before anything is rendered: a
   * rejected document yields a diagnostic and no text at all.
   */
  function Generate(root: JValue): (r: Result<seq<Chunk>, Error>)
    ensures !root.JObject? ==> r == Err(WrongType(AtRoot, TObject, TypeOf(root)))
    ensures r.Ok? ==> |r.value| >= 2 && r.value[0].Header? && r.value[|r.value| - 1] == Footer
    ensures r.Ok? ==> r.value[0].defineEntries == r.value[0].noteEntries <= MFT_MAX_ENTRIES
  {
    var (entries, ds) :- CheckRoot(root);
    var devs :- ValidateDevices(ds);
    Ok(Render(entries, devs))
  }

  /**
   * The device loop as written (lines 159-186): each device's line is
   * written as soon as that device passes, so a failure leaves the lines of
   * the devices before it behind.
   */
  function EmitDevices(ds: seq<JValue>): (seq<Chunk>, Option<Error>)
    decreases |ds|
  {
    if |ds| == 0 then ([], None)
    else
      match ValidateDevice(ds[0])
      case Err(e) => ([], Some(e))
      case Ok(d) =>
        var (rest, failure) := EmitDevices(ds[1..]);
        ([Entry(d.name, d.typ)] + rest, failure)
  }

  /**
   * elftool_generate as written: the text it leaves in the output file and
   * the diagnostic it stops with, if any. The header is written (line 158)
   * before any device is examined.
   */
  function GenerateStream(root: JValue): (seq<Chunk>, Option<Error>) {
    match CheckRoot(root)
    case Err(e) => ([], Some(e))
    case Ok((entries, ds)) =>
      var (lines, failure) := EmitDevices(ds);
      var footer := if failure.None? then [Footer] else [];
      ([Header(entries, entries)] + lines + footer, failure)
  }

  /** Number of table rows a text declares: the header carries entry 0. */
  function Rows(out: seq<Chunk>): nat
    decreases |out|
  {
    if |out| == 0 then 0
    else (if out[0].Footer? then 0 else 1) + Rows(out[1..])
  }
}

=== FILE: manifest_spec.dfy ===
/**
 * A declarative account of the documents the generator accepts and of the
 * text it renders, stated without the walk order of the source, and the
 * lemmas tying the generator to it.
 */
module ManifestSpec {
  import opened Wrappers
  import opened Json
  import opened MftAbi
  import opened Diagnostics
  import opened Manifest

  /** The position of the last member named `key`, if any. */
  function LastIndexOf(ms: Members, key: string): (r: Option<nat>)
    ensures r.Some? ==> r.value < |ms| && ms[r.value].0 == key
    ensures r.Some? ==> forall j :: r.value < j < |ms| ==> ms[j].0 != key
    ensures r.None? ==> forall j :: 0 <= j < |ms| ==> ms[j].0 != key
    decreases |ms|
  {
    if |ms| == 0 then None
    else
      match LastIndexOf(ms[1..], key)
      case Some(j) => Some(j + 1)
      case None => if ms[0].0 == key then Some(0) else None
  }

  predicate AllObjects(es: seq<JValue>) {
    forall j :: 0 <= j < |es| ==> es[j].JObject?
  }

  /** A root member the generator lets through. */
  predicate RootMemberOk(m: (string, JValue)) {
    || (m.0 == "version" && m.1.JInt?)
    || (m.0 == "devices" && m.1.JArray? && AllObjects(m.1.elems))
  }

  predicate RootShapeOk(ms: Members) {
    forall i :: 0 <= i < |ms| ==> RootMemberOk(ms[i])
  }

  /** The value of the last `version` member. */
  function DeclaredVersion(ms: Members): Option<int>
    requires RootShapeOk(ms)
  {
    match LastIndexOf(ms, "version")
    case None => None
    case Some(i) => Some(ms[i].1.i)
  }

  /** The elements of the last `devices` member. */
  function DeclaredDevices(ms: Members): Option<seq<JValue>>
    requires RootShapeOk(ms)
  {
    match LastIndexOf(ms, "devices")
    case None => None
    case Some(i) => Some(ms[i].1.elems)
  }

  /** The number of devices over every `devices` member. */
  function DeviceCount(ms: Members): nat
    decreases |ms|
  {
    if |ms| == 0 then 0
    else
      (if ms[0].0 == "devices" && ms[0].1.JArray? then |ms[0].1.elems| else 0)
      + DeviceCount(ms[1..])
  }

  predicate DeviceShapeOk(ms: Members) {
    forall i :: 0 <= i < |ms| ==> (ms[i].0 == "name" || ms[i].0 == "type") && ms[i].1.JString?
  }

  /** The value of the last string member named `key`. */
  function DeclaredString(ms: Members, key: string): Option<string>
    requires DeviceShapeOk(ms)
  {
    match LastIndexOf(ms, key)
    case None => None
    case Some(i) => Some(ms[i].1.s)
  }

  predicate NameOk(n: string) {
    0 < |n| <= MFT_NAME_MAX && AllAlnum(n)
  }

  predicate DeviceOk(v: JValue) {
    && v.JObject?
    && DeviceShapeOk(v.members)
    && DeclaredString(v.members, "name").Some?
    && NameOk(DeclaredString(v.members, "name").value)
    && DeclaredString(v.members, "type").Some?
  }

  function DeviceOf(v: JValue): Device
    requires DeviceOk(v)
  {
    Device(DeclaredString(v.members, "name").value, DeclaredString(v.members, "type").value)
  }

  /** A document the generator accepts, independent of checking order. */
  predicate Accepted(root: JValue) {
    && root.JObject?
    && RootShapeOk(root.members)
    && DeclaredVersion(root.members) == Some(MFT_VERSION)
    && DeclaredDevices(root.members).Some?
    && 1 + DeviceCount(root.members) <= MFT_MAX_ENTRIES
    && forall j :: 0 <= j < |DeclaredDevices(root.members).value| ==>
         DeviceOk(DeclaredDevices(root.members).value[j])
  }

  // ---------------------------------------------------------------------
  // The walks agree with the declarative account.
  // ---------------------------------------------------------------------

  lemma {:induction false} CheckObjectsSpec(es: seq<JValue>)
    ensures CheckObjects(es).Ok? <==> AllObjects(es)
    decreases |es|
  {
    if |es| > 0 {
      CheckObjectsSpec(es[1..]);
      assert AllObjects(es) <==> es[0].JObject? && AllObjects(es[1..]) by {
        assert forall j :: 0 < j < |es| ==> es[j] == es[1..][j - 1];
      }
    }
  }

  /** The walk's state after a member it lets through. */
  function RootStep(acc: RootScan, m: (string, JValue)): RootScan
    requires RootMemberOk(m)
  {
    if m.0 == "version" then acc.(version := Some(m.1.i))
    else acc.(devices := Some(m.1.elems), entries := acc.entries + |m.1.elems|)
  }

  /** A member the walk lets through is consumed and the walk goes on. */
  lemma ScanRootStep(ms: Members, acc: RootScan)
    requires |ms| > 0 && RootMemberOk(ms[0])
    ensures ScanRoot(ms, acc) == ScanRoot(ms[1..], RootStep(acc, ms[0]))
  {
    if ms[0].0 == "devices" {
      CheckObjectsSpec(ms[0].1.elems);
    }
  }

  /** The root walk succeeds exactly on a well-shaped member list. */
  lemma {:induction false} ScanRootAccepts(ms: Members, acc: RootScan)
    ensures ScanRoot(ms, acc).Ok? <==> RootShapeOk(ms)
    decreases |ms|
  {
    if |ms| > 0 {
      var (key, v) := ms[0];
      var tail := ms[1..];
      assert RootShapeOk(ms) <==> RootMemberOk(ms[0]) && RootShapeOk(tail) by {
        assert forall j :: 0 < j < |ms| ==> ms[j] == tail[j - 1];
      }
      if RootMemberOk(ms[0]) {
        ScanRootStep(ms, acc);
        ScanRootAccepts(tail, RootStep(acc, ms[0]));
      } else if key == "devices" && v.JArray? {
        CheckObjectsSpec(v.elems);
      }
    }
  }

  /** On a well-shaped list, the walk returns the last declarations and the
      device count of every `devices` member. */
  lemma {:induction false} ScanRootResult(ms: Members, acc: RootScan)
    requires RootShapeOk(ms)
    ensures ScanRoot(ms, acc) == Ok(RootScan(
      Override(DeclaredVersion(ms), acc.version),
      Override(DeclaredDevices(ms), acc.devices),
      acc.entries + DeviceCount(ms)))
    decreases |ms|
  {
    if |ms| > 0 {
      var (key, v) := ms[0];
      var tail := ms[1..];
      assert RootShapeOk(tail) by {
        assert forall j :: 0 <= j < |tail| ==> tail[j] == ms[j + 1];
      }
      assert RootMemberOk(ms[0]);
      ScanRootStep(ms, acc);
      DeclaredStep(ms);
      ScanRootResult(tail, RootStep(acc, ms[0]));
    }
  }

  /** Dropping the first member: a later declaration wins over it. */
  lemma DeclaredStep(ms: Members)
    requires |ms| > 0 && RootShapeOk(ms) && RootShapeOk(ms[1..])
    ensures DeclaredVersion(ms) ==
      Override(DeclaredVersion(ms[1..]), if ms[0].0 == "version" then Some(ms[0].1.i) else None)
    ensures DeclaredDevices(ms) ==
      Override(DeclaredDevices(ms[1..]), if ms[0].0 == "devices" then Some(ms[0].1.elems) else None)
  {
  }

  lemma ScanRootSpec(ms: Members, acc: RootScan)
    ensures ScanRoot(ms, acc).Ok? <==> RootShapeOk(ms)
    ensures RootShapeOk(ms) ==> ScanRoot(ms, acc) == Ok(RootScan(
      Override(DeclaredVersion(ms), acc.version),
      Override(DeclaredDevices(ms), acc.devices),
      acc.entries + DeviceCount(ms)))
  {
    ScanRootAccepts(ms, acc);
    if RootShapeOk(ms) {
      ScanRootResult(ms, acc);
    }
  }

  lemma {:induction false} ScanDeviceSpec(ms: Members, acc: DeviceScan)
    ensures ScanDevice(ms, acc).Ok? <==> DeviceShapeOk(ms)
    ensures DeviceShapeOk(ms) ==> ScanDevice(ms, acc) == Ok(DeviceScan(
      Override(DeclaredString(ms, "name"), acc.name),
      Override(DeclaredString(ms, "type"), acc.typ)))
    decreases |ms|
  {
    if |ms| > 0 {
      var (key, v) := ms[0];
      var tail := ms[1..];
      assert forall j :: 0 < j < |ms| ==> ms[j] == tail[j - 1];
      assert DeviceShapeOk(ms) <==>
        (key == "name" || key == "type") && v.JString? && DeviceShapeOk(tail);
      if (key == "name" || key == "type") && v.JString? {
        var acc' := if key == "name" then acc.(name := Some(v.s)) else acc.(typ := Some(v.s));
        assert ScanDevice(ms, acc) == ScanDevice(tail, acc');
        ScanDeviceSpec(tail, acc');
      }
    }
  }

  /** One device passes exactly when it is well formed, and yields its last
      name and type verbatim. */
  lemma ValidateDeviceSpec(v: JValue)
    ensures ValidateDevice(v).Ok? <==> DeviceOk(v)
    ensures DeviceOk(v) ==> ValidateDevice(v) == Ok(DeviceOf(v))
  {
    if v.JObject? {
      ScanDeviceSpec(v.members, DeviceScan(None, None));
    }
  }

  /** The device list passes exactly when every device is well formed; the
      result keeps input order and copies each device verbatim. */
  lemma {:induction false} ValidateDevicesSpec(ds: seq<JValue>)
    ensures ValidateDevices(ds).Ok? <==> forall j :: 0 <= j < |ds| ==> DeviceOk(ds[j])
    ensures ValidateDevices(ds).Ok? ==>
      |ValidateDevices(ds).value| == |ds| &&
      forall j :: 0 <= j < |ds| ==> ValidateDevices(ds).value[j] == DeviceOf(ds[j])
    decreases |ds|
  {
    if |ds| > 0 {
      var tail := ds[1..];
      assert forall j :: 0 < j < |ds| ==> ds[j] == tail[j - 1];
      ValidateDeviceSpec(ds[0]);
      ValidateDevicesSpec(tail);
    }
  }

  /** The first device that fails decides the diagnostic, whatever follows. */
  lemma {:induction false} FirstBadDeviceWins(ds: seq<JValue>, i: nat)
    requires i < |ds|
    requires forall j :: 0 <= j < i ==> DeviceOk(ds[j])
    requires !DeviceOk(ds[i])
    ensures ValidateDevices(ds).Err? && ValidateDevice(ds[i]) == Err(ValidateDevices(ds).error)
    decreases i
  {
    ValidateDeviceSpec(ds[0]);
    if i > 0 {
      var tail := ds[1..];
      assert forall j :: 0 <= j < i - 1 ==> tail[j] == ds[j + 1];
      FirstBadDeviceWins(tail, i - 1);
    }
  }

  /** The root checks pass exactly when the root is well formed, and then
      deliver the full entry count and the last `devices` array. */
  lemma CheckRootSpec(root: JValue)
    ensures CheckRoot(root).Ok? <==>
      && root.JObject?
      && RootShapeOk(root.members)
      && DeclaredVersion(root.members) == Some(MFT_VERSION)
      && DeclaredDevices(root.members).Some?
      && 1 + DeviceCount(root.members) <= MFT_MAX_ENTRIES
    ensures CheckRoot(root).Ok? ==>
      CheckRoot(root).value == (1 + DeviceCount(root.members), DeclaredDevices(root.members).value)
  {
    if root.JObject? {
      ScanRootSpec(root.members, RootScan(None, None, 1));
    }
  }

  // ---------------------------------------------------------------------
  // Which diagnostic wins.
  // ---------------------------------------------------------------------

  /** The position of the first element of `es` that is not an object. */
  function FirstNonObject(es: seq<JValue>): (i: nat)
    requires !AllObjects(es)
    ensures i < |es| && !es[i].JObject?
    ensures forall j :: 0 <= j < i ==> es[j].JObject?
    decreases |es|
  {
    if !es[0].JObject? then 0
    else
      assert !AllObjects(es[1..]) by {
        var k :| 0 <= k < |es| && !es[k].JObject?;
        assert es[1..][k - 1] == es[k];
      }
      1 + FirstNonObject(es[1..])
  }

  /**
   * The diagnostic a root member that the walk does not let through earns:
   * a non-integer `version`, a non-array `devices`, the first non-object
   * element of a `devices` array, or an unknown key.
   */
  function RootMemberError(m: (string, JValue)): Error
    requires !RootMemberOk(m)
  {
    if m.0 == "version" then WrongType(AtVersion, TInt, TypeOf(m.1))
    else if m.0 == "devices" && !m.1.JArray? then WrongType(AtDevices, TArray, TypeOf(m.1))
    else if m.0 == "devices" then
      WrongType(AtDevicesElem, TObject, TypeOf(m.1.elems[FirstNonObject(m.1.elems)]))
    else UnknownRootKey(m.0)
  }

  lemma {:induction false} CheckObjectsStopsAt(es: seq<JValue>, i: nat)
    requires i < |es| && !es[i].JObject?
    requires forall j :: 0 <= j < i ==> es[j].JObject?
    ensures CheckObjects(es) == Err(WrongType(AtDevicesElem, TObject, TypeOf(es[i])))
    decreases i
  {
    if i > 0 {
      assert forall j :: 0 <= j < i - 1 ==> es[1..][j] == es[j + 1];
      CheckObjectsStopsAt(es[1..], i - 1);
    }
  }

  lemma {:induction false} ScanRootStopsAt(ms: Members, acc: RootScan, i: nat)
    requires i < |ms|
    requires forall j :: 0 <= j < i ==> RootMemberOk(ms[j])
    requires !RootMemberOk(ms[i])
    ensures ScanRoot(ms, acc) == Err(RootMemberError(ms[i]))
    decreases i
  {
    var (key, v) := ms[0];
    if i > 0 {
      assert RootMemberOk(ms[0]);
      ScanRootStep(ms, acc);
      assert forall j :: 0 <= j < i - 1 ==> ms[1..][j] == ms[j + 1];
      ScanRootStopsAt(ms[1..], RootStep(acc, ms[0]), i - 1);
    } else if key == "devices" && v.JArray? {
      CheckObjectsStopsAt(v.elems, FirstNonObject(v.elems));
    }
  }

  /**
   * The first root member the walk does not let through decides the
   * diagnostic, ahead of every later member and of the checks after the
   * walk.
   */
  lemma BadRootMemberRejected(root: JValue, i: nat)
    requires root.JObject? && i < |root.members|
    requires forall j :: 0 <= j < i ==> RootMemberOk(root.members[j])
    requires !RootMemberOk(root.members[i])
    ensures Generate(root) == Err(RootMemberError(root.members[i]))
  {
    ScanRootStopsAt(root.members, RootScan(None, None, 1), i);
  }

  /** A root member with a key other than `version` or `devices` is
      rejected by name, provided no member before it was rejected first. */
  lemma UnknownRootKeyRejected(root: JValue, i: nat)
    requires root.JObject? && i < |root.members|
    requires forall j :: 0 <= j < i ==> RootMemberOk(root.members[j])
    requires root.members[i].0 != "version" && root.members[i].0 != "devices"
    ensures Generate(root) == Err(UnknownRootKey(root.members[i].0))
  {
    BadRootMemberRejected(root, i);
  }

  /**
   * Once every root member is well typed, the checks that follow run in the
   * order missing version, missing devices, wrong version, too many entries;
   * the entry limit applies before, and regardless of, any device's content.
   */
  lemma RootRejections(root: JValue)
    requires root.JObject? && RootShapeOk(root.members)
    ensures DeclaredVersion(root.members).None? ==> Generate(root) == Err(MissingVersion)
    ensures DeclaredVersion(root.members).Some? && DeclaredDevices(root.members).None? ==>
      Generate(root) == Err(MissingDevices)
    ensures (DeclaredVersion(root.members).Some? && DeclaredDevices(root.members).Some? &&
             DeclaredVersion(root.members).value != MFT_VERSION) ==>
      Generate(root) == Err(InvalidVersion(DeclaredVersion(root.members).value))
    ensures (DeclaredVersion(root.members) == Some(MFT_VERSION) &&
             DeclaredDevices(root.members).Some? &&
             1 + DeviceCount(root.members) > MFT_MAX_ENTRIES) ==>
      Generate(root) == Err(TooManyEntries)
  {
    ScanRootSpec(root.members, RootScan(None, None, 1));
  }

  /** A device member the walk lets through. */
  predicate DeviceMemberOk(m: (string, JValue)) {
    (m.0 == "name" || m.0 == "type") && m.1.JString?
  }

  /** The diagnostic a device member that the walk does not let through
      earns: a `name` or `type` that is not a string, or an unknown key. */
  function DeviceMemberError(m: (string, JValue)): Error
    requires !DeviceMemberOk(m)
  {
    if m.0 == "name" || m.0 == "type" then WrongType(AtDeviceMember, TString, TypeOf(m.1))
    else UnknownDeviceKey(m.0)
  }

  lemma {:induction false} ScanDeviceStopsAt(ms: Members, acc: DeviceScan, i: nat)
    requires i < |ms|
    requires forall j :: 0 <= j < i ==> DeviceMemberOk(ms[j])
    requires !DeviceMemberOk(ms[i])
    ensures ScanDevice(ms, acc) == Err(DeviceMemberError(ms[i]))
    decreases i
  {
    if i > 0 {
      var (key, v) := ms[0];
      assert DeviceMemberOk(ms[0]);
      var acc' := if key == "name" then acc.(name := Some(v.s)) else acc.(typ := Some(v.s));
      assert ScanDevice(ms, acc) == ScanDevice(ms[1..], acc');
      assert forall j :: 0 <= j < i - 1 ==> ms[1..][j] == ms[j + 1];
      ScanDeviceStopsAt(ms[1..], acc', i - 1);
    }
  }

  /**
   * In a device object, the first member the walk does not let through
   * decides the diagnostic, ahead of every later member and of the name
   * and type checks.
   */
  lemma BadDeviceMemberRejected(v: JValue, i: nat)
    requires v.JObject? && i < |v.members|
    requires forall j :: 0 <= j < i ==> DeviceMemberOk(v.members[j])
    requires !DeviceMemberOk(v.members[i])
    ensures ValidateDevice(v) == Err(DeviceMemberError(v.members[i]))
  {
    ScanDeviceStopsAt(v.members, DeviceScan(None, None), i);
  }

  /** A device member other than `name` or `type` is rejected by name,
      provided no member before it was rejected first. */
  lemma UnknownDeviceKeyRejected(v: JValue, i: nat)
    requires v.JObject? && i < |v.members|
    requires forall j :: 0 <= j < i ==> DeviceMemberOk(v.members[j])
    requires v.members[i].0 != "name" && v.members[i].0 != "type"
    ensures ValidateDevice(v) == Err(UnknownDeviceKey(v.members[i].0))
  {
    BadDeviceMemberRejected(v, i);
  }

  /**
   * For a device whose members are all well typed, the name checks run in
   * the order present, non-empty, short enough, alphanumeric, and only then
   * is `type` required; the content of `type` is never examined.
   */
  lemma DeviceRejections(v: JValue)
    requires v.JObject? && DeviceShapeOk(v.members)
    ensures DeclaredString(v.members, "name").None? ==> ValidateDevice(v) == Err(MissingName)
    ensures DeclaredString(v.members, "name") == Some("") ==> ValidateDevice(v) == Err(EmptyName)
    ensures (DeclaredString(v.members, "name").Some? &&
             |DeclaredString(v.members, "name").value| > MFT_NAME_MAX) ==>
      ValidateDevice(v) == Err(NameTooLong)
    ensures (DeclaredString(v.members, "name").Some? &&
             0 < |DeclaredString(v.members, "name").value| <= MFT_NAME_MAX &&
             !AllAlnum(DeclaredString(v.members, "name").value)) ==>
      ValidateDevice(v) == Err(NameNotAlnum)
    ensures (DeclaredString(v.members, "name").Some? &&
             NameOk(DeclaredString(v.members, "name").value) &&
             DeclaredString(v.members, "type").None?) ==>
      ValidateDevice(v) == Err(MissingType)
  {
    ScanDeviceSpec(v.members, DeviceScan(None, None));
  }

  // ---------------------------------------------------------------------
  // Acceptance and rendering.
  // ---------------------------------------------------------------------

  /**
   * The generator accepts exactly the well-formed documents, and renders the
   * header stating the entry count twice, one line per device of the last
   * `devices` array in input order with name and type verbatim, and the
   * footer.
   */
  lemma GenerateSpec(root: JValue)
    ensures Generate(root).Ok? <==> Accepted(root)
    ensures Accepted(root) ==>
      var ds := DeclaredDevices(root.members).value;
      var out := Generate(root).value;
      && |out| == |ds| + 2
      && out[0] == Header(1 + DeviceCount(root.members), 1 + DeviceCount(root.members))
      && (forall j :: 0 <= j < |ds| ==>
            out[j + 1] == Entry(DeviceOf(ds[j]).name, DeviceOf(ds[j]).typ))
      && out[|ds| + 1] == Footer
  {
    CheckRootSpec(root);
    if CheckRoot(root).Ok? {
      ValidateDevicesSpec(CheckRoot(root).value.1);
    }
  }

  lemma {:induction false} RowsAppend(a: seq<Chunk>, b: seq<Chunk>)
    ensures Rows(a + b) == Rows(a) + Rows(b)
    decreases |a|
  {
    if |a| > 0 {
      assert (a + b)[0] == a[0];
      assert (a + b)[1..] == a[1..] + b;
      RowsAppend(a[1..], b);
    } else {
      assert a + b == b;
    }
  }

  lemma {:induction false} RowsOfEntries(devs: seq<Device>)
    ensures Rows(RenderEntries(devs)) == |devs|
    decreases |devs|
  {
    if |devs| > 0 {
      assert RenderEntries(devs) == [RenderEntries(devs)[0]] + RenderEntries(devs[1..]);
      RowsAppend([RenderEntries(devs)[0]], RenderEntries(devs[1..]));
      RowsOfEntries(devs[1..]);
    }
  }

  /**
   * An accepted document renders one table row per device of the last
   * `devices` array plus the reserved row, while the header states the count
   * over every `devices` member.
   */
  lemma RenderedRows(root: JValue)
    requires Accepted(root)
    ensures Generate(root).Ok?
    ensures Rows(Generate(root).value) == 1 + |DeclaredDevices(root.members).value|
    ensures Generate(root).value[0].noteEntries == 1 + DeviceCount(root.members)
  {
    GenerateSpec(root);
    CheckRootSpec(root);
    ValidateDevicesSpec(CheckRoot(root).value.1);
    var devs := ValidateDevices(CheckRoot(root).value.1).value;
    var entries := CheckRoot(root).value.0;
    RowsAppend([Header(entries, entries)] + RenderEntries(devs), [Footer]);
    RowsAppend([Header(entries, entries)], RenderEntries(devs));
    RowsOfEntries(devs);
  }

  /** Members keyed `key`, counted. */
  function KeyCount(ms: Members, key: string): nat
    decreases |ms|
  {
    if |ms| == 0 then 0 else (if ms[0].0 == key then 1 else 0) + KeyCount(ms[1..], key)
  }

  lemma {:induction false} SingleDevicesCount(ms: Members)
    requires RootShapeOk(ms)
    requires KeyCount(ms, "devices") == 1
    ensures DeclaredDevices(ms).Some?
    ensures DeviceCount(ms) == |DeclaredDevices(ms).value|
    decreases |ms|
  {
    var tail := ms[1..];
    assert forall j :: 0 < j < |ms| ==> ms[j] == tail[j - 1];
    assert RootShapeOk(tail);
    if ms[0].0 == "devices" {
      NoDevicesKey(tail);
    } else {
      SingleDevicesCount(tail);
    }
  }

  lemma {:induction false} NoDevicesKey(ms: Members)
    requires KeyCount(ms, "devices") == 0
    ensures LastIndexOf(ms, "devices").None?
    ensures DeviceCount(ms) == 0
    decreases |ms|
  {
    if |ms| > 0 {
      NoDevicesKey(ms[1..]);
    }
  }

  /** With a single `devices` member, the header's count equals the number
      of table rows written. */
  lemma HeaderMatchesRows(root: JValue)
    requires Accepted(root)
    requires KeyCount(root.members, "devices") == 1
    ensures Generate(root).Ok?
    ensures Generate(root).value[0].noteEntries == Rows(Generate(root).value)
  {
    RenderedRows(root);
    SingleDevicesCount(root.members);
  }

  /**
   * With two `devices` members the header counts both arrays but only the
   * last is written: with one well-formed device in each, the header says 3
   * entries and 2 rows follow (given room for 3 entries).
   */
  lemma DuplicateDevicesMiscount(dev: JValue)
    requires DeviceOk(dev)
    requires 3 <= MFT_MAX_ENTRIES
    ensures
      var root := JObject([("version", JInt(MFT_VERSION)), ("devices", JArray([dev])), ("devices", JArray([dev]))]);
      && Generate(root).Ok?
      && Generate(root).value[0].noteEntries == 3
      && Rows(Generate(root).value) == 2
  {
    var root := JObject([("version", JInt(MFT_VERSION)), ("devices", JArray([dev])), ("devices", JArray([dev]))]);
    var ms := root.members;
    assert RootShapeOk(ms) by {
      assert AllObjects([dev]);
      assert forall i :: 0 <= i < |ms| ==> RootMemberOk(ms[i]);
    }
    assert LastIndexOf(ms, "devices") == Some(2);
    assert LastIndexOf(ms, "version") == Some(0);
    assert ms[1..] == [ms[1], ms[2]];
    assert ms[1..][1..] == [ms[2]];
    assert ms[1..][1..][1..] == [];
    assert DeviceCount(ms[1..][1..]) == 1;
    assert DeviceCount(ms[1..]) == 2;
    assert DeviceCount(ms) == 2;
    assert Accepted(root);
    RenderedRows(root);
  }
}

=== FILE: manifest_stream.dfy ===
/**
 * The generator as written commits the header to the output file before it
 * examines any device. These lemmas relate what it leaves in the file to
 * the validate-first generator.
 */
module ManifestStream {
  import opened Wrappers
  import opened Json
  import opened MftAbi
  import opened Diagnostics
  import opened Manifest
  import opened ManifestSpec

  lemma {:induction false} ScanDeviceErrors(ms: Members, acc: DeviceScan)
    ensures ScanDevice(ms, acc).Err? ==> IsDeviceError(ScanDevice(ms, acc).error)
    decreases |ms|
  {
    if |ms| > 0 {
      var (key, v) := ms[0];
      if key == "name" && v.JString? {
        ScanDeviceErrors(ms[1..], acc.(name := Some(v.s)));
      } else if key == "type" && v.JString? {
        ScanDeviceErrors(ms[1..], acc.(typ := Some(v.s)));
      }
    }
  }

  /** Every diagnostic about an object in the device list concerns that
      device's own content. */
  lemma DeviceErrorKind(v: JValue)
    requires v.JObject?
    ensures ValidateDevice(v).Err? ==> IsDeviceError(ValidateDevice(v).error)
  {
    ScanDeviceErrors(v.members, DeviceScan(None, None));
  }

  /** Where the device loop as written stops: at the first failing device,
      after one line per device before it. */
  lemma {:induction false} EmitDevicesStops(ds: seq<JValue>)
    ensures EmitDevices(ds).1.Some? ==>
      && |EmitDevices(ds).0| < |ds|
      && !DeviceOk(ds[|EmitDevices(ds).0|])
      && ValidateDevice(ds[|EmitDevices(ds).0|]).Err?
      && EmitDevices(ds).1 == Some(ValidateDevice(ds[|EmitDevices(ds).0|]).error)
    ensures EmitDevices(ds).1.None? ==> |EmitDevices(ds).0| == |ds|
    decreases |ds|
  {
    if |ds| > 0 {
      ValidateDeviceSpec(ds[0]);
      if ValidateDevice(ds[0]).Ok? {
        var tail := ds[1..];
        EmitDevicesStops(tail);
        var (rest, failure) := EmitDevices(tail);
        assert EmitDevices(ds) == ([Entry(ValidateDevice(ds[0]).value.name, ValidateDevice(ds[0]).value.typ)] + rest, failure);
        if failure.Some? {
          assert ds[|rest| + 1] == tail[|rest|];
        }
      }
    }
  }

  /** On a list the validator accepts, the loop writes the same lines as
      the validate-first rendering; otherwise it fails with the same error. */
  lemma {:induction false} EmitDevicesAgree(ds: seq<JValue>)
    ensures ValidateDevices(ds).Ok? ==>
      EmitDevices(ds) == (RenderEntries(ValidateDevices(ds).value), None)
    ensures ValidateDevices(ds).Err? ==> EmitDevices(ds).1 == Some(ValidateDevices(ds).error)
    decreases |ds|
  {
    if |ds| == 0 {
      assert RenderEntries([]) == [];
    } else {
      var tail := ds[1..];
      EmitDevicesAgree(tail);
      if ValidateDevice(ds[0]).Ok? {
        var d := ValidateDevice(ds[0]).value;
        var (rest, failure) := EmitDevices(tail);
        assert EmitDevices(ds) == ([Entry(d.name, d.typ)] + rest, failure);
        if ValidateDevices(ds).Ok? {
          var devs := ValidateDevices(tail).value;
          assert ValidateDevices(ds).value == [d] + devs;
          assert RenderEntries([d] + devs) == [Entry(d.name, d.typ)] + RenderEntries(devs);
        }
      }
    }
  }

  /** Every line the loop writes is the entry of the device at the same
      position, and that device is well formed. */
  lemma {:induction false} EmitDevicesLines(ds: seq<JValue>)
    ensures |EmitDevices(ds).0| <= |ds|
    ensures forall k :: 0 <= k < |EmitDevices(ds).0| ==>
      DeviceOk(ds[k]) && EmitDevices(ds).0[k] == Entry(DeviceOf(ds[k]).name, DeviceOf(ds[k]).typ)
    decreases |ds|
  {
    if |ds| > 0 {
      var tail := ds[1..];
      ValidateDeviceSpec(ds[0]);
      EmitDevicesLines(tail);
      if ValidateDevice(ds[0]).Ok? {
        var d := ValidateDevice(ds[0]).value;
        var (rest, failure) := EmitDevices(tail);
        assert EmitDevices(ds) == ([Entry(d.name, d.typ)] + rest, failure);
        forall k | 0 < k < |EmitDevices(ds).0|
          ensures DeviceOk(ds[k]) && EmitDevices(ds).0[k] == Entry(DeviceOf(ds[k]).name, DeviceOf(ds[k]).typ)
        {
          assert EmitDevices(ds).0[k] == rest[k - 1];
          assert tail[k - 1] == ds[k];
        }
      }
    }
  }

  /** Over a list of objects, the loop can only fail with a device error. */
  lemma {:induction false} EmitDevicesErrors(ds: seq<JValue>)
    ensures AllObjects(ds) && EmitDevices(ds).1.Some? ==> IsDeviceError(EmitDevices(ds).1.value)
    decreases |ds|
  {
    if |ds| > 0 {
      var tail := ds[1..];
      assert AllObjects(ds) ==> AllObjects(tail) by {
        assert forall j :: 0 <= j < |tail| ==> tail[j] == ds[j + 1];
      }
      if ds[0].JObject? {
        DeviceErrorKind(ds[0]);
      }
      EmitDevicesErrors(tail);
    }
  }

  /**
   * The device loop as written stops at the first failing device with that
   * device's diagnostic, and what it has written by then is exactly the
   * lines of the devices before it.
   */
  lemma EmitDevicesSpec(ds: seq<JValue>)
    ensures ValidateDevices(ds).Ok? ==>
      EmitDevices(ds) == (RenderEntries(ValidateDevices(ds).value), None)
    ensures ValidateDevices(ds).Err? ==> EmitDevices(ds).1 == Some(ValidateDevices(ds).error)
    ensures |EmitDevices(ds).0| <= |ds|
    ensures forall k :: 0 <= k < |EmitDevices(ds).0| ==>
      DeviceOk(ds[k]) && EmitDevices(ds).0[k] == Entry(DeviceOf(ds[k]).name, DeviceOf(ds[k]).typ)
    ensures AllObjects(ds) && EmitDevices(ds).1.Some? ==> IsDeviceError(EmitDevices(ds).1.value)
    ensures EmitDevices(ds).1.Some? ==>
      && |EmitDevices(ds).0| < |ds|
      && !DeviceOk(ds[|EmitDevices(ds).0|])
      && ValidateDevice(ds[|EmitDevices(ds).0|]).Err?
      && EmitDevices(ds).1 == Some(ValidateDevice(ds[|EmitDevices(ds).0|]).error)
    ensures EmitDevices(ds).1.None? ==> |EmitDevices(ds).0| == |ds|
  {
    EmitDevicesAgree(ds);
    EmitDevicesLines(ds);
    EmitDevicesErrors(ds);
    EmitDevicesStops(ds);
  }

  lemma {:induction false} CheckObjectsErrors(es: seq<JValue>)
    ensures CheckObjects(es).Err? ==> !IsDeviceError(CheckObjects(es).error)
    decreases |es|
  {
    if |es| > 0 {
      CheckObjectsErrors(es[1..]);
    }
  }

  lemma {:induction false} ScanRootErrors(ms: Members, acc: RootScan)
    ensures ScanRoot(ms, acc).Err? ==> !IsDeviceError(ScanRoot(ms, acc).error)
    decreases |ms|
  {
    if |ms| > 0 {
      var (key, v) := ms[0];
      if key == "version" && v.JInt? {
        ScanRootErrors(ms[1..], acc.(version := Some(v.i)));
      } else if key == "devices" && v.JArray? {
        CheckObjectsErrors(v.elems);
        ScanRootErrors(ms[1..], acc.(devices := Some(v.elems), entries := acc.entries + |v.elems|));
      }
    }
  }

  /** The root checks never report a device-level diagnostic. */
  lemma CheckRootErrors(root: JValue)
    ensures CheckRoot(root).Err? ==> !IsDeviceError(CheckRoot(root).error)
  {
    if root.JObject? {
      ScanRootErrors(root.members, RootScan(None, None, 1));
    }
  }

  /** The root checks hand the device loop only objects. */
  lemma CheckedDevicesAreObjects(root: JValue)
    requires CheckRoot(root).Ok?
    ensures AllObjects(CheckRoot(root).value.1)
  {
    CheckRootSpec(root);
    var ms := root.members;
    assert RootMemberOk(ms[LastIndexOf(ms, "devices").value]);
  }

  /**
   * The two generators agree on the verdict and on the diagnostic, and on
   * success the file holds exactly the validate-first rendering.
   */
  lemma StreamAgreement(root: JValue)
    ensures Generate(root).Ok? ==> GenerateStream(root) == (Generate(root).value, None)
    ensures Generate(root).Err? ==> GenerateStream(root).1 == Some(Generate(root).error)
  {
    if CheckRoot(root).Ok? {
      EmitDevicesAgree(CheckRoot(root).value.1);
    }
  }

  /**
   * What a failed run leaves in the output file: never the footer, and
   * anything at all only when the failure concerns a device, in which case
   * the file starts with the header (the defect of committing the header
   * before validation).
   */
  lemma PartialOutput(root: JValue)
    requires Generate(root).Err?
    ensures Footer !in GenerateStream(root).0
    ensures GenerateStream(root).0 != [] <==> IsDeviceError(Generate(root).error)
    ensures GenerateStream(root).0 != [] ==> GenerateStream(root).0[0].Header?
  {
    StreamAgreement(root);
    CheckRootErrors(root);
    if CheckRoot(root).Ok? {
      var (entries, ds) := CheckRoot(root).value;
      CheckedDevicesAreObjects(root);
      EmitDevicesErrors(ds);
      EmitDevicesLines(ds);
      var (lines, failure) := EmitDevices(ds);
      assert failure.Some?;
      assert [Header(entries, entries)] + lines + [] == [Header(entries, entries)] + lines;
      assert GenerateStream(root) == ([Header(entries, entries)] + lines, failure);
      assert forall k :: 0 <= k < |lines| ==> lines[k].Entry?;
    }
  }

  /**
   * A failed run that leaves output behind leaves exactly the header,
   * stating the full entry count, and the lines of the devices before the
   * first failing device of the last `devices` array; that device's
   * diagnostic is the run's.
   */
  lemma PartialOutputContents(root: JValue)
    requires Generate(root).Err? && GenerateStream(root).0 != []
    ensures root.JObject? && RootShapeOk(root.members) && DeclaredDevices(root.members).Some?
    ensures
      var out := GenerateStream(root).0;
      var ds := DeclaredDevices(root.members).value;
      && out[0] == Header(1 + DeviceCount(root.members), 1 + DeviceCount(root.members))
      && |out| - 1 < |ds|
      && (forall k :: 0 <= k < |out| - 1 ==>
            DeviceOk(ds[k]) && out[k + 1] == Entry(DeviceOf(ds[k]).name, DeviceOf(ds[k]).typ))
      && !DeviceOk(ds[|out| - 1])
      && ValidateDevice(ds[|out| - 1]) == Err(Generate(root).error)
  {
    var (entries, ds) := CheckRoot(root).value;
    CheckRootSpec(root);
    var (lines, failure) := EmitDevices(ds);
    assert failure.Some? && Generate(root).error == failure.value by {
      EmitDevicesAgree(ds);
    }
    assert GenerateStream(root).0 == [Header(entries, entries)] + lines;
    AfterHead(Header(entries, entries), lines);
    EmitDevicesLines(ds);
    EmitDevicesStops(ds);
  }

  /** The lines after a leading chunk are the tail, position for position. */
  lemma AfterHead(h: Chunk, t: seq<Chunk>)
    ensures forall k :: 0 <= k < |t| ==> ([h] + t)[k + 1] == t[k]
  {
  }
}

=== FILE: mft_abi.dfy ===
/**
 * Constants of the binary manifest format and the table itself. The values
 * are those of Solo5's mft_abi.h. No lemma depends on them beyond what it
 * states as a precondition and MFT_NAME_MAX being a length (a nat):
 * DuplicateDevicesMiscount asks for room for three entries.
 */
module MftAbi {

  const MFT_VERSION: int := 1
  const MFT_MAX_ENTRIES: int := 64
  /** Longest name that fits in the fixed-width, NUL-terminated name field;
      a length, so never negative. */
  const MFT_NAME_MAX: nat := 67
  /** Type of the implicit entry 0; every device kind is below it. */
  const MFT_RESERVED_FIRST: nat := 0x4000_0000

  datatype MftEntry = MftEntry(name: string, typ: nat)

  /** A binary table: its version and entry-count fields and its entries. */
  datatype Mft = Mft(version: int, entries: nat, e: seq<MftEntry>)

  /**
   * What the table validator (mft_validate) establishes before a table is
   * used: the supported version, a declared count matching the entries
   * present and within bounds, the reserved sentinel in slot 0 and only,
   * and names that fit their field.
   */
  predicate Valid(m: Mft) {
    && m.version == MFT_VERSION
    && m.entries == |m.e|
    && 1 <= m.entries <= MFT_MAX_ENTRIES
    && m.e[0].typ == MFT_RESERVED_FIRST
    && (forall i :: 1 <= i < |m.e| ==> m.e[i].typ < MFT_RESERVED_FIRST)
    && (forall i :: 0 <= i < |m.e| ==> |m.e[i].name| <= MFT_NAME_MAX)
  }
}

=== FILE: roundtrip.dfy ===
/**
 * Generator and dump together: the generated C text, compiled by the Solo5
 * toolchain, becomes the binary table that `dump` reads back. The C
 * compiler is modelled only as far as the table literal goes: each
 * `MFT_DEV_<type>` must name a device kind the toolchain knows.
 */
module RoundTrip {
  import opened Wrappers
  import opened Json
  import opened MftAbi
  import opened Manifest
  import opened ManifestSpec
  import opened Dump

  /** The table rows of the generated entry lines; `typeCode` is the
      toolchain's `MFT_DEV_<type>` lookup, and an unknown kind fails. */
  function EntriesOf(body: seq<Chunk>, typeCode: string -> Option<nat>): (r: Option<seq<MftEntry>>)
    ensures (forall k :: 0 <= k < |body| ==> body[k].Entry? && typeCode(body[k].typ).Some?) ==> r.Some?
    ensures r.Some? ==> |r.value| == |body|
    ensures r.Some? ==> forall k :: 0 <= k < |body| ==>
      body[k].Entry? && r.value[k].name == body[k].name &&
      typeCode(body[k].typ) == Some(r.value[k].typ)
    decreases |body|
  {
    if |body| == 0 then Some([])
    else if !body[0].Entry? || typeCode(body[0].typ).None? then None
    else
      match EntriesOf(body[1..], typeCode)
      case None => None
      case Some(rest) => Some([MftEntry(body[0].name, typeCode(body[0].typ).value)] + rest)
  }

  /** The table the compiled text declares: the supported version, the
      header's `.entries` count, the reserved entry and one entry per line. */
  function TableOf(out: seq<Chunk>, typeCode: string -> Option<nat>): Option<Mft> {
    if |out| < 2 || !out[0].Header? || out[|out| - 1] != Footer || out[0].noteEntries < 0 then None
    else
      match EntriesOf(out[1..|out| - 1], typeCode)
      case None => None
      case Some(rows) =>
        Some(Mft(MFT_VERSION, out[0].noteEntries, [MftEntry("", MFT_RESERVED_FIRST)] + rows))
  }

  /** The toolchain's kind codes are device kinds whose printed name is the
      spelling the generator wrote. */
  ghost predicate KindsAgree(typeCode: string -> Option<nat>, kindName: nat -> string) {
    forall t :: typeCode(t).Some? ==>
      typeCode(t).value < MFT_RESERVED_FIRST && kindName(typeCode(t).value) == t
  }

  /** Names that fit the table's name field. */
  predicate NamesFit(devs: seq<Device>) {
    forall j :: 0 <= j < |devs| ==> |devs[j].name| <= MFT_NAME_MAX
  }

  /** Every device type names a kind the toolchain knows. */
  predicate KindsKnown(devs: seq<Device>, typeCode: string -> Option<nat>) {
    forall j :: 0 <= j < |devs| ==> typeCode(devs[j].typ).Some?
  }

  /**
   * The text rendered for `devs`, with the count of table rows in the
   * header, compiles to a valid table whose device entries are `devs` in
   * order: same names, kinds that print as the type strings.
   */
  lemma RenderedTable(n: int, devs: seq<Device>, typeCode: string -> Option<nat>, kindName: nat -> string)
    requires n == 1 + |devs| <= MFT_MAX_ENTRIES
    requires KindsAgree(typeCode, kindName) && KindsKnown(devs, typeCode) && NamesFit(devs)
    ensures TableOf(Render(n, devs), typeCode).Some?
    ensures Valid(TableOf(Render(n, devs), typeCode).value)
    ensures
      var kept := Kept(TableOf(Render(n, devs), typeCode).value.e);
      && |kept| == |devs|
      && forall j :: 0 <= j < |devs| ==>
           kept[j].name == devs[j].name && kindName(kept[j].typ) == devs[j].typ
  {
    var out := Render(n, devs);
    var body := out[1..|out| - 1];
    assert body == RenderEntries(devs);
    var rows := EntriesOf(body, typeCode).value;
    var m := TableOf(out, typeCode).value;
    assert m.e == [MftEntry("", MFT_RESERVED_FIRST)] + rows;
    forall j | 0 <= j < |devs|
      ensures rows[j].name == devs[j].name
      ensures rows[j].typ < MFT_RESERVED_FIRST && kindName(rows[j].typ) == devs[j].typ
    {
      assert typeCode(devs[j].typ) == Some(rows[j].typ);
    }
    assert Valid(m) by {
      forall i | 1 <= i < |m.e|
        ensures |m.e[i].name| <= MFT_NAME_MAX && m.e[i].typ < MFT_RESERVED_FIRST
      {
        assert m.e[i] == rows[i - 1];
      }
    }
    KeptOfValid(m);
    assert Kept(m.e) == rows;
  }

  /**
   * Generated text for an accepted document with a single `devices` member
   * and only known kinds compiles to a table the validator accepts, whose
   * device entries are the document's devices in order, with their names
   * unchanged and kinds that print as the document's type strings.
   */
  lemma CompiledTableRoundTrip(root: JValue, typeCode: string -> Option<nat>, kindName: nat -> string)
    requires Accepted(root)
    requires KeyCount(root.members, "devices") == 1
    requires KindsAgree(typeCode, kindName)
    requires forall j :: 0 <= j < |DeclaredDevices(root.members).value| ==>
      typeCode(DeviceOf(DeclaredDevices(root.members).value[j]).typ).Some?
    ensures Generate(root).Ok?
    ensures TableOf(Generate(root).value, typeCode).Some?
    ensures Valid(TableOf(Generate(root).value, typeCode).value)
    ensures
      var ds := DeclaredDevices(root.members).value;
      var kept := Kept(TableOf(Generate(root).value, typeCode).value.e);
      && |kept| == |ds|
      && forall j :: 0 <= j < |ds| ==>
           kept[j].name == DeviceOf(ds[j]).name && kindName(kept[j].typ) == DeviceOf(ds[j]).typ
  {
    CheckRootSpec(root);
    SingleDevicesCount(root.members);
    var ds := DeclaredDevices(root.members).value;
    ValidateDevicesSpec(ds);
    var devs := ValidateDevices(ds).value;
    var n := 1 + DeviceCount(root.members);
    assert Generate(root) == Ok(Render(n, devs));
    forall j | 0 <= j < |devs|
      ensures devs[j] == DeviceOf(ds[j])
      ensures typeCode(devs[j].typ).Some? && |devs[j].name| <= MFT_NAME_MAX
    {
      assert DeviceOk(ds[j]);
    }
    RenderedTable(n, devs, typeCode, kindName);
  }

  /**
   * Compile, then dump: the printed device lines carry the document's
   * device names and type strings, in document order.
   */
  method CompileThenDump(root: JValue, typeCode: string -> Option<nat>, kindName: nat -> string)
    returns (rows: seq<Row>)
    requires Accepted(root)
    requires KeyCount(root.members, "devices") == 1
    requires KindsAgree(typeCode, kindName)
    requires forall j :: 0 <= j < |DeclaredDevices(root.members).value| ==>
      typeCode(DeviceOf(DeclaredDevices(root.members).value[j]).typ).Some?
    ensures |rows| == |DeclaredDevices(root.members).value|
    ensures forall j :: 0 <= j < |rows| ==>
      rows[j].name == DeviceOf(DeclaredDevices(root.members).value[j]).name &&
      rows[j].kind == DeviceOf(DeclaredDevices(root.members).value[j]).typ
  {
    CompiledTableRoundTrip(root, typeCode, kindName);
    var m := TableOf(Generate(root).value, typeCode).value;
    rows := DumpRows(m, kindName);
  }
}

=== FILE: wrappers.dfy ===
/** Failure-compatible result and option types shared by the whole model. */
module Wrappers {

  datatype Option<+T> = None | Some(value: T)

  /** Either a value or the diagnostic that ended the operation. */
  datatype Result<+T, +E> = Ok(value: T) | Err(error: E) {

    predicate IsFailure() {
      Err?
    }

    function PropagateFailure<U>(): Result<U, E>
      requires Err?
    {
      Err(error)
    }

    function Extract(): T
      requires Ok?
    {
      value
    }
  }

  /** The present value of `o`, or `fallback` when `o` is absent. */
  function Override<T>(o: Option<T>, fallback: Option<T>): Option<T> {
    if o.Some? then o else fallback
  }
}
